=== FILE: README.md ===
# Day R moderation server: the moderation state store

This project models the moderation state store of the Day R moderation server
(`server.js`). The store holds two tables keyed by user id: the ban table and the
mute table. A fixed set of moderator ids gates every ban, unban, mute and unmute. The model covers four
mutating handlers: ban, unban, mute and unmute. It covers three queries: the ban
list, the mute list and the status of one user. The mute list and status also
delete expired mutes as they read them. Finally it covers the periodic sweep that
deletes every expired mute.

Layout:

- `records.dfy` (module `Records`): the decoded request, the ban and mute
  records, the replies, and JavaScript truthiness for optional fields. An absent
  field, `0` and `""` all count as falsy. It also holds the ban record an authorized
  ban stores, the corrected mute record the model's store writes, and the mute
  expiry exactly as the handler computes it.
- `expiry.dfy` (module `Expiry`): the expiry policy as functions on the mute
  table, and lemmas about them. A mute is deleted when `expires_at < now` and is
  reported as active when `expires_at > now`.
- `store.dfy` (module `Moderation`): class `Store`. Its fields `bans` and `mutes`
  are the two maps, and its constant `moderators` is the moderator set.
  `IsModerator` is the membership check. Each handler is a method that takes the
  decoded request as `Option<Request>` and takes the current time as `now`. The
  value `None` stands for a request that failed to decode, or that decoded to a
  falsy value. The object invariant `Valid()` says that every record sits under
  its own user id.
- `aswritten.dfy` (module `AsWritten`): the mute table exactly as the handler
  stores it, where an expiry may be JavaScript's NaN. It holds the sweep, the
  mutelist scan and status on that table, with JavaScript's comparisons, under
  which every comparison with NaN is false.
- `scenarios.dfy` (module `Scenarios`): end-to-end runs on a fresh store, and
  the ban/unban and mute/unmute round trips on any store. All are proved from the
  store's contracts alone.

Behaviour of `server.js` that a reader might expect otherwise:

- Only ban answers "Invalid data" to an undecodable payload (server.js:82-85).
  Unban, mute and unmute fold that case into "Unauthorized" (server.js:111-113,
  132-134, 157-159).
- The default mute expiry is `Date.now() + duration*1000` (server.js:144). It
  uses the current time, not the request's `timestamp`.
- The mute list deletes a mute only when `expires_at < now` (server.js:182-186),
  while status reports a mute only when `expires_at > now` (server.js:199-203).
  So a mute expiring exactly at `now` is listed, yet status reports it as not
  muted and deletes it (`Expiry.StatusAgreesWithSweepOffBoundary`).

## Model

| member | source | states |
|---|---|---|
| `Moderation.Store.IsModerator` | server.js:49-51 | A user may moderate iff its id is in the moderator set. With the configured set, exactly user 22358445 may. |
| `Moderation.Store.constructor` | server.js:21-23 | The store starts with empty ban and mute tables and the configured moderator set {22358445}. |
| `Moderation.Store.Ban` | server.js:79-103 | An undecodable request gets "Invalid data". A non-moderator gets "Unauthorized". Neither changes anything. Otherwise the user's ban is replaced by a fresh record, the reply is success with the user id, other bans and all mutes are unchanged, and every record stays under its own user id. |
| `Moderation.Store.Unban` | server.js:109-124 | An undecodable request or a non-moderator gets "Unauthorized". A user without a ban gets "User not banned". Neither changes anything. Otherwise exactly that key is removed and the reply is success. Mutes are never touched. |
| `Moderation.Store.Mute` | server.js:130-149 | An undecodable request or a non-moderator gets "Unauthorized" and nothing changes. Otherwise the user's mute is replaced by the record `MuteRecordOf` builds, the reply is success, and bans are unchanged. |
| `Moderation.Store.Unmute` | server.js:155-170 | Mirrors unban on the mute table. A user without a mute gets "User not muted". Bans are never touched. |
| `Moderation.Store.BanList` | server.js:174-176 | Returns every ban record exactly once. Each element is the record stored under its user id, every stored ban appears, no user id repeats, and the length equals the number of bans. |
| `Moderation.Store.MuteList` | server.js:180-190 | Returns exactly the mutes with `expires_at >= now`, each once, and as many as remain stored. Expired mutes are deleted by the user id they hold. The table left behind equals the sweep's at the same time. Bans are unchanged. |
| `Moderation.Store.Status` | server.js:194-213 | `is_banned` holds iff a ban exists, and `ban_info` is that record or none. `is_muted` holds iff a mute exists with `expires_at > now`, and `mute_info` is that record or none. An existing but inactive mute is deleted. Nothing else changes. |
| `Moderation.Store.Sweep` | server.js:217-225 | Deletes exactly the mutes with `expires_at < now`. All other mutes and all bans are untouched. |
| `Records.BanRecordOf` | server.js:92-99 | A ban record carries the requested user and moderator ids. A falsy reason becomes "No reason provided", so the reason is never empty. A falsy timestamp becomes `now`. Truthy fields are kept. |
| `Records.MuteRecordOf` | server.js:136-145 | A mute record carries the requested ids. A falsy duration becomes 60, so the duration is never 0. Reason and timestamp default as for bans. A truthy `expires_at` is trusted as given. Otherwise the expiry is `now + duration*1000`, computed from the defaulted duration. With a truthy duration this equals the handler's own result. |
| `Records.ExpiresAtAsWritten` | server.js:144 | The expiry the handler computes is NaN exactly when the request has no duration and no truthy `expires_at`. A truthy `expires_at` is taken as given. |
| `AsWritten.RawMuteOf` | server.js:138-145 | The record the handler stores carries the defaulted duration (`duration \|\| 60`), reason and timestamp of the corrected record, and the handler's own expiry, which is NaN exactly when duration and `expires_at` are both missing. With a truthy duration it is the corrected record. |
| `AsWritten.ZeroDurationStoredExpiresAtOnce` | server.js:141-144 | A mute request with duration 0 and no truthy `expires_at` stores duration 60 but expiry `now`. In any table holding that record, status never reports the user as muted at any time from `now` on. |
| `AsWritten.RawSwept` | server.js:219-224 | The sweep as written keeps a record unless `expires_at < now` holds in JavaScript, so it keeps every NaN expiry. Kept records are unchanged. |
| `AsWritten.RawPurged` | server.js:181-187 | The mutelist scan as written removes the user id held by each record with `expires_at < now`. Every other key stays, with its record unchanged. |
| `AsWritten.RawListed` | server.js:181-187 | The mutelist returns exactly the stored records without `expires_at < now`, NaN expiries included. |
| `AsWritten.RawStatusTable` | server.js:197-203 | Status leaves the table as it is when it reports the user muted. Otherwise it deletes that user's record. No other record changes. |
| `AsWritten.NaNMuteListedUntilStatus` | server.js:181-203 | A stored mute with a NaN expiry survives unchanged through any run of sweeps, mutelist calls and status calls for other users, and every later mutelist call returns it as active. A status query for that user reports it as not muted and deletes it. Unmute and a new mute of that user, which also end the record, are not among the queries. |
| `AsWritten.NaNExpiryFromMissingDuration` | server.js:138-145 | A mute request with no duration and no truthy `expires_at` stores a NaN expiry. The mutelist then returns that record through any run of sweeps, mutelist calls and status calls for other users. |
| `AsWritten.RawSweptAgrees` | server.js:219-224 | On a table whose expiries are all numbers, the sweep as written leaves exactly the model's swept table. |
| `Expiry.Swept` | server.js:219-224 | The sweep's table holds exactly the records with `expires_at >= now`, each unchanged under its key. |
| `Expiry.Purged` | server.js:181-187 | The mutelist scan's table is a subset of the old table with records unchanged. No user id held by an expired record remains. A removed key is the user id of some expired record. |
| `Expiry.IsMuted` | server.js:199 | A user status calls muted has a record that the sweep at the same time keeps unchanged. A record with `expires_at > now` is always reported as muted. |
| `Expiry.PurgedIsSwept` | server.js:181-187 | When every mute sits under its own user id, deleting expired records by their `user_id` (mute list) removes exactly what deleting by key (sweep) removes. |
| `Expiry.PurgedDiffersWhenMisKeyed` | server.js:181-187 | Without that invariant the two differ. A stale record under another user's key makes the mute-list scan delete that user's live mute. |
| `Expiry.SweptKeepsKeyed` | server.js:219-224 | The sweep keeps every mute under its own user id. |
| `Expiry.SweptLaterSubsumes` | server.js:217-225 | A sweep at `t1` followed by one at a later `t2` leaves the same table as a single sweep at `t2`. |
| `Expiry.SweptIdempotent` | server.js:217-225 | Sweeping twice at the same time equals sweeping once. |
| `Expiry.StatusAgreesWithSweepOffBoundary` | server.js:199-203 | For a mute not expiring exactly at `now`, status says muted iff the sweep and mute list keep it. At `expires_at == now` the list keeps it, but status says not muted. An absent mute is neither. |
| `Scenarios.BanThenStatus` | server.js:195-211 | Moderator 22358445 bans user 999 for "spam". The reply is success for 999, and status then reports the ban with reason "spam". |
| `Scenarios.BanTwice` | server.js:94-99 | Banning a user twice leaves one ban in the list, carrying the latest reason. |
| `Scenarios.UnbanTwice` | server.js:117-124 | The first unban succeeds. The second reports "User not banned". The mute table, which holds user 3, is the same after both unbans as before. |
| `Scenarios.StrangerIsRefused` | server.js:87-90 | A ban and a mute from a non-moderator both get "Unauthorized", and both tables stay empty. |
| `Scenarios.MuteExpires` | server.js:199-203 | User 42 is muted for 1 s. More than 1 s later, status says not muted and the mute list is empty. |
| `Scenarios.MuteListedThenExpired` | server.js:181-187 | User 7 is muted for 5 s. The mute list includes the record at once. More than 5 s later neither the mute list nor status shows user 7. |
| `Scenarios.BanThenUnbanRestores` | server.js:94-118 | On any valid store, an authorized ban of an unbanned user followed by an unban succeeds twice and restores both tables exactly. |
| `Scenarios.MuteThenUnmuteRestores` | server.js:138-164 | On any valid store, an authorized mute of an unmuted user followed by an unmute succeeds twice and restores both tables exactly. |

## Left out

- Base64 and JSON decoding and encoding of payloads, and the `{result: 1, data}` response envelope (server.js:25-47). These are thin wrappers over the runtime, so a failed decode appears only as a `None` request.
- Express setup, CORS, body parsing, routing, the 404 handler and the listener (server.js:1-19, 53-73, 227-253). This is transport code.
- All console logging.
- `setInterval` scheduling and the interleaving of the sweep with requests. Only the sweep body is modelled, as a method called with `now`.
- `Date.now()` and `parseInt` of the status path parameter. They become the `now` and `userId` parameters, so a non-numeric id (NaN) is not modelled.
- JavaScript dynamic typing beyond the falsy defaults. This covers non-integer or missing ids, non-string reasons, and falsy values other than absent, `0` and `""`.
- The order of the ban and mute lists. JavaScript returns them in Map insertion order, but the model promises only each record once.
- Moderation.Store.Mute: stores the corrected expiry of `Records.MuteRecordOf`, not the handler's NaN or raw-duration expiry (see Findings).

## Findings

| source | as written | input that shows it | evidently intended | confidence | as-written member | corrected member |
|---|---|---|---|---|---|---|
| server.js:141-144 | The default expiry uses the raw duration field, before the 60-second default is applied. | A mute request with neither `duration` nor `expires_at` gets a NaN expiry. The sweep never removes it and the mute list keeps returning it as active, until a status query for that user reports it as not muted and deletes it, or an unmute or new mute of that user removes or replaces it. | The expiry is `now` plus the stored, defaulted duration in milliseconds. | medium, not executed | `AsWritten.NaNExpiryFromMissingDuration` | `Records.MuteRecordOf` |
| server.js:141-144 | Same line, with duration `0`. | A mute request with `duration: 0` and no `expires_at` stores duration 60 but expires at `now`. | The expiry is `now + 60*1000`, matching the stored duration. | low, not executed | `AsWritten.ZeroDurationStoredExpiresAtOnce` | `Records.MuteRecordOf` |

=== FILE: aswritten.dfy ===
/**
 * The mute table exactly as the server writes it, where a mute's expiry
 * may be JavaScript's NaN (`None` here): the handler computes
 * `now + duration * 1000` from the raw duration field, which is NaN when
 * the field is absent. Every comparison with NaN is false, so the sweep
 * and the mutelist scan never delete such a record and status never
 * reports it as muted, but deletes it. Only the sweep and the three read
 * paths are modelled here; an unmute or a new mute of the same user also
 * replaces or removes such a record, as the store's handlers show.
 */
module AsWritten {
  import opened Records
  import opened Expiry

  /** JavaScript `e < t` where `None` is NaN: false whenever `e` is NaN. */
  predicate JsLess(e: Option<int>, t: int) {
    e.Some? && e.value < t
  }

  /** JavaScript `e > t` where `None` is NaN: false whenever `e` is NaN. */
  predicate JsGreater(e: Option<int>, t: int) {
    e.Some? && e.value > t
  }

  /** A mute record as stored by the handler, with a possibly-NaN expiry. */
  datatype RawMute = RawMute(
    user_id: int,
    moderator_id: int,
    duration: int,
    reason: string,
    timestamp: int,
    expires_at: Option<int>)

  /** A mute record whose expiry is a number, as the handler would store it. */
  function Raw(r: MuteRecord): RawMute {
    RawMute(r.user_id, r.moderator_id, r.duration, r.reason, r.timestamp, Some(r.expires_at))
  }

  /** A whole mute table with numeric expiries, as the handler would store it. */
  function RawTable(m: map<int, MuteRecord>): (r: map<int, RawMute>)
    ensures r.Keys == m.Keys
  {
    map k | k in m :: Raw(m[k])
  }

  /**
   * The record the mute handler stores as written: every field as the
   * corrected record has it, except the expiry, which is computed from
   * the raw duration. The two agree whenever the duration is truthy.
   */
  function RawMuteOf(req: Request, now: int): (r: RawMute)
    ensures r.user_id == req.user_id && r.moderator_id == req.moderator_id
    ensures r.expires_at == ExpiresAtAsWritten(req, now)
    ensures r.expires_at.None? <==> req.duration.None? && !TruthyInt(req.expires_at)
    ensures r.duration == MuteRecordOf(req, now).duration && r.reason == MuteRecordOf(req, now).reason
    ensures r.timestamp == MuteRecordOf(req, now).timestamp
    ensures TruthyInt(req.duration) ==> r == Raw(MuteRecordOf(req, now))
  {
    var c := MuteRecordOf(req, now);
    RawMute(c.user_id, c.moderator_id, c.duration, c.reason, c.timestamp, ExpiresAtAsWritten(req, now))
  }

  /**
   * A mute request with duration 0 and no truthy `expires_at` stores a
   * record whose duration is the 60-second default but whose expiry is
   * `now`: in any table holding it, status never reports the user as
   * muted from the moment it is stored on.
   */
  lemma ZeroDurationStoredExpiresAtOnce(req: Request, now: int)
    requires req.duration == Some(0) && !TruthyInt(req.expires_at)
    ensures RawMuteOf(req, now).duration == DefaultDuration
    ensures RawMuteOf(req, now).expires_at == Some(now)
    ensures RawMuteOf(req, now).expires_at != Some(now + RawMuteOf(req, now).duration * 1000)
    ensures forall m: map<int, RawMute>, t :: req.user_id in m && m[req.user_id] == RawMuteOf(req, now) && now <= t ==>
      !RawStatusMuted(m, req.user_id, t)
  {
  }

  /** Every raw mute is stored under the id of the user it mutes. */
  ghost predicate KeyedRaw(m: map<int, RawMute>) {
    forall k :: k in m ==> m[k].user_id == k
  }

  /** The sweep as written: it keeps a record unless `expires_at < now` holds. */
  function RawSwept(m: map<int, RawMute>, now: int): (r: map<int, RawMute>)
    ensures forall k :: k in r <==> k in m && !JsLess(m[k].expires_at, now)
    ensures forall k :: k in r ==> r[k] == m[k]
  {
    map k | k in m && !JsLess(m[k].expires_at, now) :: m[k]
  }

  /** The mutelist scan as written: it deletes the user id held by each record with `expires_at < now`. */
  function RawPurged(m: map<int, RawMute>, now: int): (r: map<int, RawMute>)
    ensures forall k :: k in r ==> k in m && r[k] == m[k]
    ensures forall k :: k in m && JsLess(m[k].expires_at, now) ==> m[k].user_id !in r
    ensures forall k :: k in m && k !in r ==> exists j :: j in m && m[j].user_id == k && JsLess(m[j].expires_at, now)
  {
    m - (set k | k in m && JsLess(m[k].expires_at, now) :: m[k].user_id)
  }

  /** The records the mutelist scan returns as active: those without `expires_at < now`. */
  function RawListed(m: map<int, RawMute>, now: int): (r: set<RawMute>)
    ensures forall k :: k in m && !JsLess(m[k].expires_at, now) ==> m[k] in r
    ensures forall x :: x in r ==> exists k :: k in m && m[k] == x && !JsLess(x.expires_at, now)
  {
    set k | k in m && !JsLess(m[k].expires_at, now) :: m[k]
  }

  /** Whether status reports user `k` as muted: a record exists with `expires_at > now`. */
  predicate RawStatusMuted(m: map<int, RawMute>, k: int, now: int) {
    k in m && JsGreater(m[k].expires_at, now)
  }

  /** The table status leaves behind: an existing record not reported as muted is deleted. */
  function RawStatusTable(m: map<int, RawMute>, k: int, now: int): (r: map<int, RawMute>)
    ensures RawStatusMuted(m, k, now) ==> r == m
    ensures !RawStatusMuted(m, k, now) ==> k !in r
    ensures forall j :: j != k ==> (j in r <==> j in m)
    ensures forall j :: j in r ==> r[j] == m[j]
  {
    if RawStatusMuted(m, k, now) then m else m - {k}
  }

  /** A query that changes the mute table: a sweep, a mutelist call or a status call. */
  datatype Query = SweepAt(now: int) | MuteListAt(now: int) | StatusOf(user: int, now: int)

  /** The table after one query. */
  function Apply(m: map<int, RawMute>, q: Query): map<int, RawMute> {
    match q
    case SweepAt(t) => RawSwept(m, t)
    case MuteListAt(t) => RawPurged(m, t)
    case StatusOf(u, t) => RawStatusTable(m, u, t)
  }

  /** The table after a run of queries, in order. */
  function Run(m: map<int, RawMute>, qs: seq<Query>): map<int, RawMute>
    decreases |qs|
  {
    if qs == [] then m else Run(Apply(m, qs[0]), qs[1..])
  }

  /** Every query keeps each record under its own user id. */
  lemma ApplyKeepsKeyed(m: map<int, RawMute>, q: Query)
    requires KeyedRaw(m)
    ensures KeyedRaw(Apply(m, q))
  {
  }

  /**
   * A mute with a NaN expiry, stored under its own user id, outlives any
   * run of sweeps, mutelist calls and status calls for other users: it is
   * still stored, unchanged, and every later mutelist call returns it as
   * active. The first status call for that user reports it as not muted
   * and deletes it. Unmute and mute, which also end such a record, are
   * not among the queries.
   */
  lemma {:induction false} NaNMuteListedUntilStatus(m: map<int, RawMute>, k: int, qs: seq<Query>)
    requires KeyedRaw(m) && k in m && m[k].expires_at.None?
    requires forall i :: 0 <= i < |qs| ==> !(qs[i].StatusOf? && qs[i].user == k)
    ensures k in Run(m, qs) && Run(m, qs)[k] == m[k]
    ensures forall t :: m[k] in RawListed(Run(m, qs), t)
    ensures forall t :: !RawStatusMuted(Run(m, qs), k, t) && k !in RawStatusTable(Run(m, qs), k, t)
    decreases |qs|
  {
    if qs != [] {
      var m1 := Apply(m, qs[0]);
      ApplyKeepsKeyed(m, qs[0]);
      assert k in m1 && m1[k] == m[k] by {
        match qs[0]
        case SweepAt(t) =>
        case MuteListAt(t) =>
          forall j | j in m && JsLess(m[j].expires_at, t) ensures m[j].user_id != k {
            assert m[j].user_id == j;
          }
        case StatusOf(u, t) =>
          assert u != k;
      }
      forall i | 0 <= i < |qs[1..]| ensures !(qs[1..][i].StatusOf? && qs[1..][i].user == k) {
        assert qs[1..][i] == qs[i + 1];
      }
      NaNMuteListedUntilStatus(m1, k, qs[1..]);
    }
  }

  /**
   * A NaN expiry arises exactly from a mute request with no duration and
   * no truthy `expires_at`, and such a record, once stored, is listed
   * through any run of sweeps, mutelist calls and status calls for other
   * users.
   */
  lemma NaNExpiryFromMissingDuration(m: map<int, RawMute>, req: Request, now: int, qs: seq<Query>)
    requires KeyedRaw(m) && req.duration.None? && !TruthyInt(req.expires_at)
    requires forall i :: 0 <= i < |qs| ==> !(qs[i].StatusOf? && qs[i].user == req.user_id)
    ensures RawMuteOf(req, now).expires_at.None?
    ensures var stored := m[req.user_id := RawMuteOf(req, now)];
      forall t :: RawMuteOf(req, now) in RawListed(Run(stored, qs), t)
  {
    var stored := m[req.user_id := RawMuteOf(req, now)];
    assert KeyedRaw(stored);
    NaNMuteListedUntilStatus(stored, req.user_id, qs);
  }

  /**
   * On a table whose expiries are all numbers, the sweep as written is
   * the sweep of the model: the handler's NaN is the only way the two
   * can differ.
   */
  lemma RawSweptAgrees(m: map<int, MuteRecord>, now: int)
    ensures RawSwept(RawTable(m), now) == RawTable(Swept(m, now))
  {
    var a := RawSwept(RawTable(m), now);
    var b := RawTable(Swept(m, now));
    forall k ensures k in a <==> k in b { }
    forall k | k in a ensures a[k] == b[k] { }
  }
}

=== FILE: expiry.dfy ===
/**
 * The mute-expiry policy as functions on the mute table, a map from user id
 * to mute record. A mute expires strictly after its `expires_at`: the
 * mutelist scan and the sweep delete a record only when `expires_at < now`,
 * while status counts a user as muted only when `expires_at > now`.
 */
module Expiry {
  import opened Records

  /** Every mute is stored under the id of the user it mutes. */
  ghost predicate KeyedMutes(m: map<int, MuteRecord>) {
    forall k :: k in m ==> m[k].user_id == k
  }

  /** The sweep's view of the table: the keys whose record expired before `now`. */
  function ExpiredKeys(m: map<int, MuteRecord>, now: int): set<int> {
    set k | k in m && m[k].expires_at < now
  }

  /**
   * The table left by the sweep at time `now`: exactly the records that
   * have not expired, each under its old key.
   */
  function Swept(m: map<int, MuteRecord>, now: int): (r: map<int, MuteRecord>)
    ensures forall k :: k in r <==> k in m && now <= m[k].expires_at
    ensures forall k :: k in r ==> r[k] == m[k]
  {
    m - ExpiredKeys(m, now)
  }

  /**
   * A table that keeps, unchanged, exactly the records of `m` that have
   * not expired at `now` is the sweep's table.
   */
  lemma KeptIsSwept(m: map<int, MuteRecord>, kept: map<int, MuteRecord>, now: int)
    requires forall k :: k in kept ==> k in m && kept[k] == m[k]
    requires forall k :: k in m ==> (k in kept <==> now <= m[k].expires_at)
    ensures kept == Swept(m, now)
  {
    forall k ensures k in kept <==> k in Swept(m, now) { }
    forall k | k in kept ensures kept[k] == Swept(m, now)[k] { }
  }

  /**
   * The mutelist scan's view of the table: it deletes by the `user_id`
   * held in each expired record, not by the key it found it under.
   */
  function ExpiredUserIds(m: map<int, MuteRecord>, now: int): set<int> {
    set k | k in m && m[k].expires_at < now :: m[k].user_id
  }

  /**
   * The table left by the mutelist scan at time `now`: a subset of the old
   * table in which no user id held by an expired record remains.
   */
  function Purged(m: map<int, MuteRecord>, now: int): (r: map<int, MuteRecord>)
    ensures forall k :: k in r ==> k in m && r[k] == m[k]
    ensures forall k :: k in m && m[k].expires_at < now ==> m[k].user_id !in r
    ensures forall k :: k in m && k !in r ==> exists j :: j in m && m[j].user_id == k && m[j].expires_at < now
  {
    m - ExpiredUserIds(m, now)
  }

  /**
   * Whether status reports user `k` as muted at time `now`. A user status
   * calls muted is one the sweep at that time keeps, with the same record.
   */
  function IsMuted(m: map<int, MuteRecord>, k: int, now: int): (r: bool)
    ensures r ==> k in m && k in Swept(m, now) && Swept(m, now)[k] == m[k]
    ensures k in m && now < m[k].expires_at ==> r
  {
    k in m && m[k].expires_at > now
  }

  /**
   * On a table whose records sit under their own user ids, the mutelist
   * scan deletes exactly what the sweep deletes.
   */
  lemma PurgedIsSwept(m: map<int, MuteRecord>, now: int)
    requires KeyedMutes(m)
    ensures Purged(m, now) == Swept(m, now)
  {
    assert ExpiredUserIds(m, now) == ExpiredKeys(m, now) by {
      forall k | k in ExpiredKeys(m, now) ensures k in ExpiredUserIds(m, now) {
        assert m[k].user_id == k;
      }
    }
  }

  /**
   * Without that invariant the two differ: a stale record under key 1
   * naming user 2 makes the mutelist scan delete user 2's live mute and
   * keep the stale record, where the sweep does the opposite.
   */
  lemma PurgedDiffersWhenMisKeyed()
    ensures var stale := MuteRecord(2, 0, 60, NoReason, 0, 5);
            var live := MuteRecord(2, 0, 60, NoReason, 0, 500);
            var m := map[1 := stale, 2 := live];
            !KeyedMutes(m) && Purged(m, 100) == map[1 := stale] && Swept(m, 100) == map[2 := live]
  {
    var stale := MuteRecord(2, 0, 60, NoReason, 0, 5);
    var live := MuteRecord(2, 0, 60, NoReason, 0, 500);
    var m := map[1 := stale, 2 := live];
    assert m[1].user_id != 1;
    assert ExpiredUserIds(m, 100) == {2} by {
      assert m[1].expires_at < 100;
    }
    assert ExpiredKeys(m, 100) == {1};
    assert Purged(m, 100) == map[1 := stale];
    assert Swept(m, 100) == map[2 := live];
  }

  /** The sweep keeps every record under its own user id. */
  lemma SweptKeepsKeyed(m: map<int, MuteRecord>, now: int)
    requires KeyedMutes(m)
    ensures KeyedMutes(Swept(m, now))
  {
  }

  /**
   * Sweeping at `t1` and then at a later `t2` leaves what one sweep at
   * `t2` leaves; in particular a second sweep at the same time is a no-op.
   */
  lemma SweptLaterSubsumes(m: map<int, MuteRecord>, t1: int, t2: int)
    requires t1 <= t2
    ensures Swept(Swept(m, t1), t2) == Swept(m, t2)
  {
  }

  /** Sweeping twice at the same time equals sweeping once. */
  lemma SweptIdempotent(m: map<int, MuteRecord>, now: int)
    ensures Swept(Swept(m, now), now) == Swept(m, now)
  {
    SweptLaterSubsumes(m, now, now);
  }

  /**
   * Status and the list paths agree on every record except one expiring
   * exactly at `now`: such a record is still listed and kept by the
   * sweep, yet status reports the user as not muted.
   */
  lemma StatusAgreesWithSweepOffBoundary(m: map<int, MuteRecord>, k: int, now: int)
    ensures k in m && m[k].expires_at != now ==> (IsMuted(m, k, now) <==> k in Swept(m, now))
    ensures k in m && m[k].expires_at == now ==> !IsMuted(m, k, now) && k in Swept(m, now)
    ensures k !in m ==> !IsMuted(m, k, now) && k !in Swept(m, now)
  {
  }
}

=== FILE: records.dfy ===
/**
 * Values handled by the moderation server: the decoded request payload,
 * the ban and mute records it stores, and the replies of the handlers.
 * Optional request fields follow JavaScript truthiness: an absent field,
 * the number 0 and the empty string are all "falsy" and replaced by a default.
 */
module Records {

  datatype Option<T> = None | Some(value: T)

  /** The placeholder reason stored when a request gives none. */
  const NoReason: string := "No reason provided"

  /** The mute duration, in seconds, stored when a request gives none. */
  const DefaultDuration: int := 60

  /** Error texts carried in `{success: false, error}` replies. */
  const InvalidData: string := "Invalid data"
  const Unauthorized: string := "Unauthorized"
  const NotBanned: string := "User not banned"
  const NotMuted: string := "User not muted"

  /** A decoded request payload; every field but the two ids may be absent. */
  datatype Request = Request(
    user_id: int,
    moderator_id: int,
    reason: Option<string>,
    timestamp: Option<int>,
    duration: Option<int>,
    expires_at: Option<int>)

  datatype BanRecord = BanRecord(
    user_id: int,
    moderator_id: int,
    reason: string,
    timestamp: int)

  datatype MuteRecord = MuteRecord(
    user_id: int,
    moderator_id: int,
    duration: int,
    reason: string,
    timestamp: int,
    expires_at: int)

  /** The reply of ban, unban, mute and unmute: `{success: true, user_id}` or `{success: false, error}`. */
  datatype Reply = Success(user_id: int) | Failure(error: string)

  /** The reply of the status query. */
  datatype StatusReport = StatusReport(
    user_id: int,
    is_banned: bool,
    is_muted: bool,
    ban_info: Option<BanRecord>,
    mute_info: Option<MuteRecord>)

  /** JavaScript truthiness of an optional number: absent and 0 are falsy. */
  predicate TruthyInt(o: Option<int>) {
    o.Some? && o.value != 0
  }

  /** JavaScript truthiness of an optional string: absent and "" are falsy. */
  predicate TruthyString(o: Option<string>) {
    o.Some? && o.value != ""
  }

  /** `x || fallback` on an optional number. */
  function IntOr(o: Option<int>, fallback: int): int {
    if TruthyInt(o) then o.value else fallback
  }

  /** `x || fallback` on an optional string. */
  function StringOr(o: Option<string>, fallback: string): string {
    if TruthyString(o) then o.value else fallback
  }

  /**
   * The ban record an authorized ban stores for `req` at time `now`.
   * It is keyed by the requested user, always has a non-empty reason
   * and keeps every truthy field the moderator supplied.
   */
  function BanRecordOf(req: Request, now: int): (r: BanRecord)
    ensures r.user_id == req.user_id && r.moderator_id == req.moderator_id
    ensures r.reason != ""
    ensures TruthyString(req.reason) ==> r.reason == req.reason.value
    ensures !TruthyString(req.reason) ==> r.reason == NoReason
    ensures !TruthyInt(req.timestamp) ==> r.timestamp == now
    ensures TruthyInt(req.timestamp) ==> r.timestamp == req.timestamp.value
  {
    BanRecord(req.user_id, req.moderator_id, StringOr(req.reason, NoReason), IntOr(req.timestamp, now))
  }

  /**
   * The expiry time the mute handler computes, as written: a truthy
   * supplied `expires_at` is trusted, otherwise `now + duration * 1000`
   * with the duration as supplied, before defaulting. `None` stands for
   * JavaScript's NaN, the result of arithmetic on an absent field.
   */
  function ExpiresAtAsWritten(req: Request, now: int): (r: Option<int>)
    ensures r.None? <==> req.duration.None? && !TruthyInt(req.expires_at)
    ensures TruthyInt(req.expires_at) ==> r == Some(req.expires_at.value)
  {
    if TruthyInt(req.expires_at) then Some(req.expires_at.value)
    else if req.duration.Some? then Some(now + req.duration.value * 1000)
    else None
  }

  /**
   * The corrected mute record the model's store writes for `req` at time
   * `now`, with the expiry computed from the defaulted duration. Its expiry is
   * always a number, and unless a truthy `expires_at` was supplied it
   * lies exactly `duration` seconds after `now`; the duration is never 0.
   */
  function MuteRecordOf(req: Request, now: int): (r: MuteRecord)
    ensures r.user_id == req.user_id && r.moderator_id == req.moderator_id
    ensures r.duration != 0 && r.reason != ""
    ensures TruthyInt(req.duration) ==> r.duration == req.duration.value
    ensures !TruthyInt(req.duration) ==> r.duration == DefaultDuration
    ensures TruthyString(req.reason) ==> r.reason == req.reason.value
    ensures !TruthyString(req.reason) ==> r.reason == NoReason
    ensures TruthyInt(req.timestamp) ==> r.timestamp == req.timestamp.value
    ensures !TruthyInt(req.timestamp) ==> r.timestamp == now
    ensures TruthyInt(req.expires_at) ==> r.expires_at == req.expires_at.value
    ensures !TruthyInt(req.expires_at) ==> r.expires_at == now + r.duration * 1000
    ensures !TruthyInt(req.expires_at) && !TruthyInt(req.duration) ==> r.expires_at == now + DefaultDuration * 1000
    ensures TruthyInt(req.duration) ==> Some(r.expires_at) == ExpiresAtAsWritten(req, now)
  {
    var duration := IntOr(req.duration, DefaultDuration);
    MuteRecord(
      req.user_id,
      req.moderator_id,
      duration,
      StringOr(req.reason, NoReason),
      IntOr(req.timestamp, now),
      if TruthyInt(req.expires_at) then req.expires_at.value else now + duration * 1000)
  }
}

=== FILE: scenarios.dfy ===
/**
 * End-to-end runs of the moderation server, written as clients of the
 * store's contracts: each one follows a documented usage of the service
 * and states the replies a client observes.
 */
module Scenarios {
  import opened Records
  import opened Expiry
  import opened Moderation

  /** The one configured moderator. */
  const Moderator: int := 22358445

  /** A request from the configured moderator naming only user, reason and duration. */
  function ModeratorRequest(userId: int, reason: Option<string>, duration: Option<int>): Request {
    Request(userId, Moderator, reason, None, duration, None)
  }

  /** Banning user 999 for "spam" succeeds, and status then reports the ban with that reason. */
  method BanThenStatus(now: int) returns (reply: Reply, report: StatusReport)
    ensures reply == Success(999)
    ensures report.is_banned && report.ban_info == Some(BanRecord(999, Moderator, "spam", now))
    ensures !report.is_muted && report.mute_info == None
  {
    var store := new Store();
    reply := store.Ban(Some(ModeratorRequest(999, Some("spam"), None)), now);
    report := store.Status(999, now);
  }

  /** Banning the same user twice leaves one ban, carrying the latest reason. */
  method BanTwice(now: int) returns (list: seq<BanRecord>)
    ensures |list| == 1 && list[0].user_id == 5 && list[0].reason == "second"
  {
    var store := new Store();
    var _ := store.Ban(Some(ModeratorRequest(5, Some("first"), None)), now);
    var _ := store.Ban(Some(ModeratorRequest(5, Some("second"), None)), now);
    assert store.bans == map[5 := BanRecord(5, Moderator, "second", now)];
    list := store.BanList();
    assert store.bans[5] in list;
  }

  /** A second unban of the same user reports "User not banned"; the mute table is never touched. */
  method UnbanTwice(now: int) returns (first: Reply, second: Reply, mutesBefore: map<int, MuteRecord>, mutesAfter: map<int, MuteRecord>)
    ensures first == Success(3) && second == Failure(NotBanned)
    ensures 3 in mutesBefore && mutesAfter == mutesBefore
  {
    var store := new Store();
    var _ := store.Mute(Some(ModeratorRequest(3, None, Some(30))), now);
    var _ := store.Ban(Some(ModeratorRequest(3, None, None)), now);
    mutesBefore := store.mutes;
    first := store.Unban(Some(ModeratorRequest(3, None, None)));
    second := store.Unban(Some(ModeratorRequest(3, None, None)));
    mutesAfter := store.mutes;
  }

  /** A request from anyone but a moderator is refused and leaves both tables empty. */
  method StrangerIsRefused(stranger: int, now: int) returns (ban: Reply, mute: Reply, size: int)
    requires stranger != Moderator
    ensures ban == Failure(Unauthorized) && mute == Failure(Unauthorized) && size == 0
  {
    var store := new Store();
    ban := store.Ban(Some(Request(8, stranger, None, None, None, None)), now);
    mute := store.Mute(Some(Request(8, stranger, None, None, Some(10), None)), now);
    size := |store.bans| + |store.mutes|;
  }

  /**
   * User 42 muted for one second is no longer muted once more than a
   * second has passed: status says so and the record is gone, so the
   * mute list that follows is empty.
   */
  method MuteExpires(t0: int, t1: int) returns (report: StatusReport, listed: seq<MuteRecord>)
    requires t0 + 1000 < t1
    ensures !report.is_muted && report.mute_info == None
    ensures listed == []
  {
    var store := new Store();
    var _ := store.Mute(Some(ModeratorRequest(42, None, Some(1))), t0);
    report := store.Status(42, t1);
    forall k ensures k !in store.mutes { }
    assert store.mutes == map[];
    listed := store.MuteList(t1);
  }

  /**
   * User 7 muted for five seconds is in the mute list right away, and
   * absent from it, and from status, after more than five seconds.
   */
  method MuteListedThenExpired(t0: int, t1: int) returns (early: seq<MuteRecord>, late: seq<MuteRecord>, report: StatusReport)
    requires t0 + 5000 < t1
    ensures MuteRecord(7, Moderator, 5, NoReason, t0, t0 + 5000) in early
    ensures forall i :: 0 <= i < |late| ==> late[i].user_id != 7
    ensures !report.is_muted && report.mute_info == None
  {
    var store := new Store();
    var _ := store.Mute(Some(ModeratorRequest(7, None, Some(5))), t0);
    early := store.MuteList(t0);
    late := store.MuteList(t1);
    report := store.Status(7, t1);
  }

  /**
   * On any store, an authorized ban of a user who was not banned, followed
   * by an unban, restores both tables exactly.
   */
  method BanThenUnbanRestores(store: Store, req: Request, now: int) returns (banned: Reply, unbanned: Reply)
    requires store.Valid() && store.IsModerator(req.moderator_id) && req.user_id !in store.bans
    modifies store
    ensures store.Valid()
    ensures banned == Success(req.user_id) && unbanned == Success(req.user_id)
    ensures store.bans == old(store.bans) && store.mutes == old(store.mutes)
  {
    banned := store.Ban(Some(req), now);
    unbanned := store.Unban(Some(req));
    forall k ensures k in store.bans <==> k in old(store.bans) { }
    forall k | k in store.bans ensures store.bans[k] == old(store.bans)[k] { }
  }

  /**
   * On any store, an authorized mute of a user who was not muted, followed
   * by an unmute, restores both tables exactly.
   */
  method MuteThenUnmuteRestores(store: Store, req: Request, now: int) returns (muted: Reply, unmuted: Reply)
    requires store.Valid() && store.IsModerator(req.moderator_id) && req.user_id !in store.mutes
    modifies store
    ensures store.Valid()
    ensures muted == Success(req.user_id) && unmuted == Success(req.user_id)
    ensures store.bans == old(store.bans) && store.mutes == old(store.mutes)
  {
    muted := store.Mute(Some(req), now);
    unmuted := store.Unmute(Some(req));
    forall k ensures k in store.mutes <==> k in old(store.mutes) { }
    forall k | k in store.mutes ensures store.mutes[k] == old(store.mutes)[k] { }
  }
}

=== FILE: store.dfy ===
/**
 * The moderation state store: the ban and mute tables, the fixed set of
 * moderators that gates writes, the four mutating handlers, the three
 * queries and the periodic sweep of expired mutes. A request that could
 * not be decoded arrives as `None`; the current time is a parameter.
 */
module Moderation {
  import opened Records
  import opened Expiry

  /** The moderator ids the server is configured with. */
  const ConfiguredModerators: set<int> := {22358445}

  /** A non-empty set of user ids has a member to pick. */
  lemma NonEmptyHasMember(s: set<int>)
    requires s != {}
    ensures exists k :: k in s
  {
    if forall k :: k !in s {
      assert false;
    }
  }

  /** Every ban is stored under the id of the user it bans. */
  ghost predicate KeyedBans(m: map<int, BanRecord>) {
    forall k :: k in m ==> m[k].user_id == k
  }

  class Store {
    var bans: map<int, BanRecord>
    var mutes: map<int, MuteRecord>
    const moderators: set<int>

    /** Every record sits under the id of the user it concerns. */
    ghost predicate Valid()
      reads this
    {
      KeyedBans(bans) && KeyedMutes(mutes)
    }

    constructor ()
      ensures Valid()
      ensures bans == map[] && mutes == map[] && moderators == ConfiguredModerators
    {
      bans := map[];
      mutes := map[];
      moderators := ConfiguredModerators;
    }

    /**
     * Whether `id` may ban, unban, mute and unmute. With the configured
     * moderator set, exactly user 22358445 may.
     */
    function IsModerator(id: int): (r: bool)
      ensures r <==> id in moderators
      ensures moderators == ConfiguredModerators ==> (r <==> id == 22358445)
    {
      id in moderators
    }

    /**
     * Ban: an undecodable request is "Invalid data", a non-moderator is
     * "Unauthorized"; otherwise the ban record is written over any
     * previous one for that user and nothing else changes.
     */
    method Ban(req: Option<Request>, now: int) returns (reply: Reply)
      requires Valid()
      modifies this
      ensures Valid()
      ensures req.None? ==> reply == Failure(InvalidData)
      ensures req.Some? && !IsModerator(req.value.moderator_id) ==> reply == Failure(Unauthorized)
      ensures req.Some? && IsModerator(req.value.moderator_id) ==>
        reply == Success(req.value.user_id) &&
        bans == old(bans)[req.value.user_id := BanRecordOf(req.value, now)]
      ensures reply.Failure? ==> bans == old(bans)
      ensures mutes == old(mutes)
    {
      if req.None? {
        return Failure(InvalidData);
      }
      var r := req.value;
      if !IsModerator(r.moderator_id) {
        return Failure(Unauthorized);
      }
      bans := bans[r.user_id := BanRecordOf(r, now)];
      reply := Success(r.user_id);
    }

    /**
     * Unban: an undecodable request or a non-moderator is "Unauthorized";
     * a user without a ban is "User not banned"; otherwise exactly that
     * user's ban is removed. Mutes are never touched.
     */
    method Unban(req: Option<Request>) returns (reply: Reply)
      requires Valid()
      modifies this
      ensures Valid()
      ensures req.None? || !IsModerator(req.value.moderator_id) ==> reply == Failure(Unauthorized)
      ensures req.Some? && IsModerator(req.value.moderator_id) ==>
        if req.value.user_id in old(bans)
        then reply == Success(req.value.user_id) && bans == old(bans) - {req.value.user_id}
        else reply == Failure(NotBanned)
      ensures reply.Failure? ==> bans == old(bans)
      ensures mutes == old(mutes)
    {
      if req.None? || !IsModerator(req.value.moderator_id) {
        return Failure(Unauthorized);
      }
      var userId := req.value.user_id;
      if userId in bans {
        bans := bans - {userId};
        reply := Success(userId);
      } else {
        reply := Failure(NotBanned);
      }
    }

    /**
     * Mute: an undecodable request or a non-moderator is "Unauthorized";
     * otherwise the mute record is written over any previous one for that
     * user and nothing else changes.
     */
    method Mute(req: Option<Request>, now: int) returns (reply: Reply)
      requires Valid()
      modifies this
      ensures Valid()
      ensures req.None? || !IsModerator(req.value.moderator_id) ==>
        reply == Failure(Unauthorized) && mutes == old(mutes)
      ensures req.Some? && IsModerator(req.value.moderator_id) ==>
        reply == Success(req.value.user_id) &&
        mutes == old(mutes)[req.value.user_id := MuteRecordOf(req.value, now)]
      ensures bans == old(bans)
    {
      if req.None? || !IsModerator(req.value.moderator_id) {
        return Failure(Unauthorized);
      }
      var r := req.value;
      mutes := mutes[r.user_id := MuteRecordOf(r, now)];
      reply := Success(r.user_id);
    }

    /**
     * Unmute: mirrors unban on the mute table, answering "User not muted"
     * when the user has no mute record. Bans are never touched.
     */
    method Unmute(req: Option<Request>) returns (reply: Reply)
      requires Valid()
      modifies this
      ensures Valid()
      ensures req.None? || !IsModerator(req.value.moderator_id) ==> reply == Failure(Unauthorized)
      ensures req.Some? && IsModerator(req.value.moderator_id) ==>
        if req.value.user_id in old(mutes)
        then reply == Success(req.value.user_id) && mutes == old(mutes) - {req.value.user_id}
        else reply == Failure(NotMuted)
      ensures reply.Failure? ==> mutes == old(mutes)
      ensures bans == old(bans)
    {
      if req.None? || !IsModerator(req.value.moderator_id) {
        return Failure(Unauthorized);
      }
      var userId := req.value.user_id;
      if userId in mutes {
        mutes := mutes - {userId};
        reply := Success(userId);
      } else {
        reply := Failure(NotMuted);
      }
    }

    /**
     * The ban list: every ban record exactly once, in no promised order.
     */
    method BanList() returns (list: seq<BanRecord>)
      requires Valid()
      ensures forall i :: 0 <= i < |list| ==> list[i].user_id in bans && bans[list[i].user_id] == list[i]
      ensures forall k :: k in bans ==> bans[k] in list
      ensures forall i, j :: 0 <= i < j < |list| ==> list[i].user_id != list[j].user_id
      ensures |list| == |bans|
    {
      list := [];
      var pending := bans.Keys;
      while pending != {}
        invariant pending <= bans.Keys
        invariant forall i :: 0 <= i < |list| ==>
          list[i].user_id in bans && list[i].user_id !in pending && bans[list[i].user_id] == list[i]
        invariant forall k :: k in bans && k !in pending ==> bans[k] in list
        invariant forall i, j :: 0 <= i < j < |list| ==> list[i].user_id != list[j].user_id
        invariant |list| + |pending| == |bans|
        decreases pending
      {
        NonEmptyHasMember(pending);
        var userId :| userId in pending;
        list := list + [bans[userId]];
        pending := pending - {userId};
      }
    }

    /**
     * The mute list: scans a snapshot of the mute records, deleting each
     * one that expired before `now` (by the user id it holds) and
     * returning every other one exactly once. Bans are not touched.
     */
    method MuteList(now: int) returns (active: seq<MuteRecord>)
      requires Valid()
      modifies this
      ensures Valid()
      ensures mutes == Purged(old(mutes), now) && mutes == Swept(old(mutes), now)
      ensures forall i :: 0 <= i < |active| ==>
        active[i].user_id in old(mutes) && old(mutes)[active[i].user_id] == active[i] &&
        now <= active[i].expires_at
      ensures forall k :: k in old(mutes) && now <= old(mutes)[k].expires_at ==> old(mutes)[k] in active
      ensures forall i, j :: 0 <= i < j < |active| ==> active[i].user_id != active[j].user_id
      ensures |active| == |mutes|
      ensures bans == old(bans)
    {
      var snapshot := mutes;
      var pending := snapshot.Keys;
      active := [];
      while pending != {}
        invariant pending <= snapshot.Keys
        invariant snapshot == old(mutes) && bans == old(bans) && KeyedMutes(snapshot)
        invariant mutes.Keys <= snapshot.Keys
        invariant forall k :: k in mutes ==> mutes[k] == snapshot[k]
        invariant forall k :: k in snapshot ==> (k in mutes <==> k in pending || now <= snapshot[k].expires_at)
        invariant forall i :: 0 <= i < |active| ==>
          active[i].user_id in snapshot && active[i].user_id !in pending &&
          snapshot[active[i].user_id] == active[i] && now <= active[i].expires_at
        invariant forall k :: k in snapshot && k !in pending && now <= snapshot[k].expires_at ==> snapshot[k] in active
        invariant forall i, j :: 0 <= i < j < |active| ==> active[i].user_id != active[j].user_id
        invariant |mutes| == |pending| + |active|
        decreases pending
      {
        NonEmptyHasMember(pending);
        var userId :| userId in pending;
        var mute := snapshot[userId];
        if mute.expires_at < now {
          mutes := mutes - {mute.user_id};
        } else {
          active := active + [mute];
        }
        pending := pending - {userId};
      }
      KeptIsSwept(snapshot, mutes, now);
      PurgedIsSwept(snapshot, now);
    }

    /**
     * Status of one user: banned iff a ban exists, muted iff a mute exists
     * that expires after `now`. A mute record that exists but is not
     * active is deleted; nothing else changes.
     */
    method Status(userId: int, now: int) returns (report: StatusReport)
      requires Valid()
      modifies this
      ensures Valid()
      ensures report.user_id == userId
      ensures report.is_banned <==> userId in bans
      ensures report.ban_info == if userId in bans then Some(bans[userId]) else None
      ensures report.is_muted <==> IsMuted(old(mutes), userId, now)
      ensures report.mute_info == if report.is_muted then Some(old(mutes)[userId]) else None
      ensures mutes == if report.is_muted then old(mutes) else old(mutes) - {userId}
      ensures bans == old(bans)
    {
      var isBanned := userId in bans;
      var isMuted := false;
      var muteInfo: Option<MuteRecord> := None;
      if userId in mutes && mutes[userId].expires_at > now {
        isMuted := true;
        muteInfo := Some(mutes[userId]);
      } else if userId in mutes {
        mutes := mutes - {userId};
      }
      var banInfo := if isBanned then Some(bans[userId]) else None;
      report := StatusReport(userId, isBanned, isMuted, banInfo, muteInfo);
    }

    /**
     * The periodic sweep: walks the mute table and deletes every record
     * that expired before `now`, leaving all other entries alone.
     */
    method Sweep(now: int)
      requires Valid()
      modifies this
      ensures Valid()
      ensures mutes == Swept(old(mutes), now)
      ensures bans == old(bans)
    {
      var pending := mutes.Keys;
      while pending != {}
        invariant pending <= mutes.Keys <= old(mutes).Keys
        invariant bans == old(bans)
        invariant forall k :: k in mutes ==> mutes[k] == old(mutes)[k]
        invariant forall k :: k in old(mutes) ==> (k in mutes <==> k in pending || now <= old(mutes)[k].expires_at)
        decreases pending
      {
        NonEmptyHasMember(pending);
        var userId :| userId in pending;
        if mutes[userId].expires_at < now {
          mutes := mutes - {userId};
        }
        pending := pending - {userId};
      }
      KeptIsSwept(old(mutes), mutes, now);
    }
  }
}
